=== FILE: README.md ===
# Jarayed narration core, modelled in Dafny

Jarayed fetches news articles on a topic, compresses them into one podcast
script and reads the script aloud through the browser's speech engine. This
project models the part of it with real logic:

- the **summarizer** of the news screen (`summarizeArticles`): the article
  texts are joined by single spaces, cut into sentences at `". "` with the
  semantics of `String.prototype.split` (section 22.1.3.23 of ECMA-262, 2024
  edition), the sentences longer than 50 characters are preferred (first 10 of
  them, else the first 15 raw sentences), and the selection is wrapped in the
  podcast intro and a closing period;
- the **duration estimate** (`calculateDuration`): words are
  `split(" ").length`, read at 200 words per minute, divided by the rate,
  computed exactly over `real`;
- the **article store**: fetched records get `showFullText = false`, and
  `toggleFullText` flips one article's flag;
- the **voice policies**: the news screen's picker of the first four English
  voices with a preference for "Daniel", which always overwrites the
  selection, and the summary page's "first voice if none selected" rule, plus
  the summary page's alias table for voice names and the picker's change
  handler;
- the **two playback controllers** as transition functions over explicit state
  records. The news screen keeps `isSpeaking`, `elapsed`, `progress`,
  `tickActive` and the engine; its inputs are the play/pause button, the
  per-headline speaker button, the engine's start and end callbacks and the
  one-second tick. The summary page keeps `isSpeaking` and the engine; its
  inputs are play/pause, stop and the end callback.

The speech engine is abstract (`Speech.Engine`): a `paused` flag that only
`pause()` and `resume()` change, as the Web Speech API specifies for the
`paused` attribute, and the number of utterances queued or playing, which
`speak()` increments, the end of an utterance decrements and `cancel()`
resets to zero. Each queued utterance delivers its own start and end
callbacks, so those callbacks arrive only while the count is positive. Every transition
returns the engine calls it issues (`Speech.Call`), so "an utterance is
issued" is a visible result.

Modules: `Options` (optional values), `Text` (indexOf, includes, startsWith,
split, join), `Seqs` (filter, find, slice), `Articles`, `Summarizer`,
`Voices`, `Speech`, `NewsPlayer`, `SummaryPlayer`, `NewsFetch` (what a
completed search leaves behind).

Behaviours of the code the model keeps:

- progress is not clamped to 100 (`NewsPlayer.ProgressUnclamped`);
- pressing play on the news screen with no voice or an empty script still
  marks it as speaking (`NewsPlayer.SpeakingWithoutUtterance`), and further
  presses then pause and resume a silent engine while the tick advances
  (`NewsPlayer.SilentPlayback`);
- the headline speaker button narrates the whole script, not the headline,
  and does not touch `isSpeaking` (`NewsPlayer.Headline`);
- the news screen has no stop command and no session identifiers; engine
  callbacks are not filtered, so when the headline button and play have
  queued two utterances, the end of the first resets the screen and the
  start of the second restarts the tick while the screen shows itself as
  not speaking (`NewsPlayer.SecondUtteranceRestartsTick`);
- the two screens use different intro wording ("we are" in the news screen,
  "we're" on the summary page).

## Model

| member | source | states |
|---|---|---|
| Text.IndexOfSpec | src/News.js:55 | `indexOf`/`includes`: the result is the leftmost occurrence, and -1 exactly when the substring occurs nowhere |
| Text.Split | src/News.js:70 | `split` with a non-empty separator always yields at least one piece (see `Text.JoinSplit`, `Text.SplitPiecesFree`, `Text.SplitJoin`) |
| Text.Join | src/News.js:69 | `join` of no pieces is the empty string, and otherwise opens with the first piece followed by the separator when there are more |
| Text.JoinSplit | src/News.js:69-70 | re-joining the `split(". ")` pieces with `". "` reproduces the text blob exactly |
| Text.SplitPiecesFree | src/News.js:70 | no piece produced by `split` contains the separator |
| Text.SplitJoin | src/News.js:70-78 | splitting a `join` of separator-free pieces at a border-free separator gives the pieces back |
| Text.SplitCount | src/News.js:122 | `split(" ").length` equals the number of spaces plus one |
| Seqs.FilterSpec | src/News.js:71-73 | `filter` keeps exactly the elements satisfying the test, each with its multiplicity, in original order |
| Seqs.Filter | src/News.js:49-50 | `filter` never lengthens the array and returns it whole when every element passes (see `Seqs.FilterSpec`) |
| Seqs.FindIndex | src/News.js:55 | `find` yields the first element satisfying the test, and nothing only when no element does |
| Seqs.Take | src/News.js:76-77 | `slice(0, n)` is the first n elements, or all of them when there are fewer |
| Articles.FromResponse | src/News.js:104-107 | every fetched article starts collapsed, one article per response record |
| Articles.FromResponseContents | src/News.js:104-107 | the stored articles carry exactly the response records, in response order |
| Articles.ToggleFullText | src/News.js:174-182 | toggling keeps the length and the contents, flips the flag at the index and leaves every other article untouched |
| Articles.ToggleTwice | src/News.js:174-182 | toggling the same index twice restores the store |
| Articles.ToggleOutside | src/News.js:176-177 | an index matching no position changes nothing |
| Summarizer.Sentences | src/News.js:69-70 | the sentences are never empty as a list, contain no `". "`, and re-join to the space-joined article texts |
| Summarizer.AllText | src/News.js:69 | the blob of no articles is empty, of one article its text, and otherwise opens with the first article's text |
| Summarizer.AllTextCons | src/News.js:69 | the blob of several articles is the first text, one space, and the blob of the rest |
| Summarizer.Selection | src/News.js:71-77 | the selection holds at most 15 sentences, at least one, in the order of the sentences it is drawn from |
| Summarizer.SelectionBranches | src/News.js:74-77 | with at least 10 sentences over 50 characters the selection is the first 10 of them; otherwise it is the first min(15, n) raw sentences |
| Summarizer.Summarize | src/News.js:66-80 | the script starts with the intro and a space and ends with a period |
| Summarizer.BodyRoundTrip | src/News.js:70-78 | splitting the script between intro and closing period at `". "` gives back exactly the selected sentences |
| Summarizer.NoArticles | src/News.js:67-78 | with no articles the script is the intro followed by `" ."` |
| Summarizer.ShortInputVerbatim | src/News.js:69-78 | with under 10 long sentences and at most 15 sentences overall, the script narrates the whole blob verbatim |
| Summarizer.WordCount | src/News.js:122 | the word count is the number of spaces plus one, so at least one |
| Summarizer.Duration | src/News.js:120-124 | duration times rate times 200 equals words times 60, and it is positive |
| Summarizer.DoubleRateHalves | src/News.js:123 | for a fixed script, doubling the rate halves the duration |
| Voices.EnglishPool | src/News.js:49-51 | the picker is exactly the first min(4, number of English voices) voices of the catalog whose language tag starts with "en", in catalog order |
| Voices.SmallCatalogFullyOffered | src/News.js:49-51 | when the catalog has at most 4 English voices, all of them are offered |
| Voices.DefaultVoice | src/News.js:54-56 | the default is absent only for an empty pool, a "Daniel" voice when the pool has one, else the pool's first voice |
| Voices.DefaultIsFirstPreferred | src/News.js:55 | the default is the first pool voice whose name contains "Daniel" |
| Voices.NewsLoadVoices | src/News.js:47-59 | the picker becomes the English pool; an empty pool leaves the selection unchanged, a non-empty one always overwrites it with the pool's default (a "Daniel" voice, else the first) |
| Voices.SummaryLoadVoices | src/SummaryPage.js:22-28 | the picker is the whole catalog; the first voice is chosen only when the catalog is non-empty and nothing is selected, and an existing selection is never overwritten |
| Voices.LoadVoicesSettles | src/News.js:46-64 | running either screen's voice loading again on the same catalog changes nothing |
| Voices.PoliciesDiffer | src/SummaryPage.js:25-27 | for every catalog with an English voice and every user choice other than the news screen's default, the news screen replaces the choice and the summary page keeps it |
| Voices.DanielOverridesChoice | src/News.js:54-58 | example: with only a "Daniel" voice in the catalog, a choice of "Samantha" is replaced by "Daniel" on the news screen and kept on the summary page |
| Voices.SelectByName | src/News.js:294-298 | the picker's change handler selects the first offered voice with that name, and nothing exactly when none has it |
| Voices.Label | src/SummaryPage.js:38-53 | a voice is labelled with its alias when its name is in the table, with its raw name otherwise |
| NewsPlayer.SpeakText | src/News.js:142-164 | one utterance of the whole script with the current voice, rate and pitch is issued exactly when a voice is selected and the script is non-empty; nothing else changes |
| NewsPlayer.PlayPause | src/News.js:126-140 | from speaking: pause, stop the tick, keep elapsed and progress; from paused: resume and restart the tick; otherwise issue at most one utterance, of the whole script with the current voice, rate and pitch, exactly when a voice is selected and the script is non-empty, and `isSpeaking` becomes true either way; the engine afterwards is the old one with exactly the issued calls applied |
| NewsPlayer.Headline | src/News.js:318-320 | whatever the title, the headline button issues one utterance of the full script with the current voice, rate and pitch exactly when a voice is selected and the script is non-empty, and leaves `isSpeaking`, the tick, elapsed and progress alone |
| NewsPlayer.OnStart | src/News.js:151-153 | the start callback starts the tick and changes nothing else |
| NewsPlayer.OnEnd | src/News.js:155-160 | the end callback stops the tick, clears `isSpeaking`, zeroes elapsed time and progress, and removes the finished utterance from the queue |
| NewsPlayer.Tick | src/News.js:166-172 | each tick adds one second and sets progress to elapsed over total times 100, without clamping |
| NewsPlayer.Handle | src/News.js:151-160 | play/pause is `handlePlayPause`, the headline button is `speakText` (`NewsPlayer.Headline`) and the tick is `updateElapsedTime`; callbacks and ticks issue no engine calls; start and end callbacks change nothing when no utterance is queued; a start starts the tick, an end resets the screen and dequeues one utterance |
| NewsPlayer.HandleConsistent | src/News.js:126-172 | every command and event keeps the progress in agreement with the elapsed time, and never leaves the screen speaking over a paused engine |
| NewsPlayer.RunConsistent | src/News.js:126-172 | any sequence of commands and events keeps both of those facts, for a fixed total time |
| NewsPlayer.PauseThenResume | src/News.js:126-134 | pausing and pressing play again restores the exact state, elapsed time included |
| NewsPlayer.ProgressUnclamped | src/News.js:169 | once elapsed time passes the estimate, progress exceeds 100 |
| NewsPlayer.SpeakingWithoutUtterance | src/News.js:135-143 | play without a voice or script marks the screen as speaking while issuing nothing |
| NewsPlayer.SilentPlayback | src/News.js:126-143 | with no voice, three presses pause and resume a silent engine and the tick then advances elapsed time |
| NewsPlayer.ResumeContinuesElapsed | src/News.js:126-172 | play, five ticks, pause, play: elapsed time is still 5 and the next tick makes it 6 |
| NewsPlayer.SecondUtteranceRestartsTick | src/News.js:151-160 | after the headline button and play queue two utterances, the first one's end stops the tick, and the second one's start restarts it while the screen is not speaking |
| SummaryPlayer.FullText | src/SummaryPage.js:10-19 | the narrated text is the intro, a space and the summary; without route state the summary is empty, and a route state lacking a summary renders it as "undefined" |
| SummaryPlayer.SpeakText | src/SummaryPage.js:55-69 | acts only when not speaking with a voice selected, then issues one utterance of the full text and sets `isSpeaking`; otherwise nothing changes |
| SummaryPlayer.PauseSpeech | src/SummaryPage.js:71-76 | acts only when speaking: pauses the engine and clears `isSpeaking` |
| SummaryPlayer.ResumeSpeech | src/SummaryPage.js:78-83 | acts only when not speaking and the engine is paused: resumes it and sets `isSpeaking` |
| SummaryPlayer.StopSpeech | src/SummaryPage.js:85-90 | cancels exactly when speaking or the engine is paused, leaving the page not speaking; otherwise a no-op |
| SummaryPlayer.PlayPause | src/SummaryPage.js:92-102 | speaking: pause; else a paused engine: resume; else start, which speaks the full text only with a voice selected; the engine afterwards is the old one with exactly the issued calls applied, so a started utterance is queued |
| SummaryPlayer.OnEnd | src/SummaryPage.js:62-64 | the end callback clears `isSpeaking` and removes the finished utterance from the queue |
| SummaryPlayer.Handle | src/SummaryPage.js:62-102 | play/pause is `handlePlayPause` and stop is `stopSpeech`; the end callback issues nothing, changes nothing with an empty queue and otherwise clears `isSpeaking` and dequeues one utterance; stop always leaves the page not speaking |
| SummaryPlayer.PlayPauseTwice | src/SummaryPage.js:92-102 | two presses from a speaking page issue pause then resume and restore the page |
| SummaryPlayer.PlayThenStop | src/SummaryPage.js:55-90 | from rest, play speaks exactly when a voice is selected, and stop then returns the page to rest |
| SummaryPlayer.StopWhilePaused | src/SummaryPage.js:85-102 | stopping a paused page leaves the engine paused, so stop stays enabled and the next play resumes instead of speaking anew |
| SummaryPlayer.HandleKeepsButton | src/SummaryPage.js:62-102 | no command or event leaves the page speaking over a paused engine |
| SummaryPlayer.RunKeepsButton | src/SummaryPage.js:55-102 | any sequence of play/pause, stop and end events keeps the page from speaking over a paused engine |
| SummaryPlayer.SpeakingAfterStop | src/SummaryPage.js:78-90 | play, pause, stop, play resumes the engine stop left paused and shows the page speaking with nothing queued |
| NewsFetch.Receive | src/News.js:99-115 | a failed search only raises the error flag; a successful one stores the response records collapsed, the script summarized from exactly those articles, and that script's duration at the current rate, which is positive |

## Left out

- The HTTP request, JSON decoding, the API key, the `loading` flag and the error message text (src/News.js:82-118): external I/O; only the outcome of a completed request is modelled (`NewsFetch.Response`).
- A response record whose `text` is missing: JavaScript's `join` renders it as an empty string; the model's records always carry a string.
- Speech engine internals: how `pause`, `resume` and `cancel` behave on a real platform, how the voice catalog is populated, and the `onvoiceschanged` subscription. The engine is the paused flag and queue count above; start and end callbacks are delivered only while an utterance is queued, the model does not tie each callback to a particular utterance, and a start callback is not limited to one per utterance.
- Wall-clock timers: the tick is a discrete event. The news screen can start a second interval while one is running (a start callback arriving after a resume) and then loses the handle of the first; the model keeps one `tickActive` flag and does not represent the leaked timer.
- React mechanics: effect dependencies, stale closures over `totalTime` or `rate`, batching and render timing.
- The seek slider that writes `progress` directly (src/News.js:243), the rate/pitch/voice controls' string-to-number coercion (src/News.js:270, 284; src/SummaryPage.js:105) and `toFixed` display formatting (src/News.js:236): rate and pitch are reals supplied in `Settings`.
- Summarizer.Duration: requires a positive rate (the rate controls range over 0.5 to 2); a zero rate, which would give Infinity in JavaScript, is not modelled.
- Voices.Label: a voice name equal to an `Object.prototype` member such as "constructor" would find that member in JavaScript; the table is modelled as a plain map.
- String length is the number of `char`s, not UTF-16 code units.
- Rendering: framer-motion and three.js visuals, src/components/Background.js, src/Home.js, the routing in src/App.js, and the summary page's display of intro and summary.

=== FILE: articles.dfy ===
/** The article store of the news screen: the records returned by the news
    search service, each extended with a display-only `showFullText` flag,
    and the toggle that expands or collapses one article. */
module Articles {
  import opened Options

  /** One record of the search response (`data.news`). A missing author is
      rendered as "Unknown". */
  datatype NewsItem = NewsItem(title: string, author: Option<string>, text: string, url: string)

  /** A stored article: the response record plus its expansion flag. */
  datatype Article = Article(title: string, author: Option<string>, text: string, url: string,
                             showFullText: bool)

  /** The response record an article was made from (the flag dropped). */
  function Content(a: Article): NewsItem {
    NewsItem(a.title, a.author, a.text, a.url)
  }

  function Contents(articles: seq<Article>): (r: seq<NewsItem>)
    ensures |r| == |articles|
    ensures forall i :: 0 <= i < |r| ==> r[i] == Content(articles[i])
  {
    seq(|articles|, i requires 0 <= i < |articles| => Content(articles[i]))
  }

  /** `{ ...article, showFullText: false }` for every record of a
      successful response. */
  function FromResponse(news: seq<NewsItem>): (r: seq<Article>)
    ensures |r| == |news|
    ensures forall i :: 0 <= i < |r| ==> !r[i].showFullText
  {
    seq(|news|, i requires 0 <= i < |news| =>
      Article(news[i].title, news[i].author, news[i].text, news[i].url, false))
  }

  /** Stored articles carry exactly the response records, in response order. */
  lemma FromResponseContents(news: seq<NewsItem>)
    ensures Contents(FromResponse(news)) == news
  {
  }

  /** `toggleFullText(index)`: the article at position `index` has its flag
      inverted; an index that matches no position changes nothing. */
  function ToggleFullText(articles: seq<Article>, index: int): (r: seq<Article>)
    ensures |r| == |articles|
    ensures Contents(r) == Contents(articles)
    ensures 0 <= index < |r| ==> r[index].showFullText == !articles[index].showFullText
    ensures forall i :: 0 <= i < |r| && i != index ==> r[i] == articles[i]
  {
    seq(|articles|, i requires 0 <= i < |articles| =>
      if i == index then articles[i].(showFullText := !articles[i].showFullText) else articles[i])
  }

  /** Toggling the same article twice restores the store. */
  lemma ToggleTwice(articles: seq<Article>, index: int)
    ensures ToggleFullText(ToggleFullText(articles, index), index) == articles
  {
  }

  /** Toggling a position outside the store leaves it unchanged. */
  lemma ToggleOutside(articles: seq<Article>, index: int)
    requires index < 0 || index >= |articles|
    ensures ToggleFullText(articles, index) == articles
  {
  }
}

=== FILE: news_fetch.dfy ===
/** What a search on the news screen leaves behind. A successful response
    replaces the articles (all collapsed), the narration script and its
    estimated length; a failed one only raises the error flag. The request
    itself is outside the model. */
module NewsFetch {
  import opened Text
  import opened Articles
  import opened Summarizer

  /** The outcome of the search request. `Failed` covers a non-success
      status and a request that did not complete. */
  datatype Response = Succeeded(news: seq<NewsItem>) | Failed

  /** The screen's article list, the narration script (`articlesTextRef`),
      its estimated length (`totalTime`) and whether the last search failed. */
  datatype Feed = Feed(articles: seq<Article>, script: string, totalTime: real, failed: bool)

  /** `fetchNews` after the request has completed, with the rate in force at
      that moment. */
  function Receive(feed: Feed, response: Response, rate: real): (r: Feed)
    requires rate > 0.0
    ensures response.Failed? ==>
      r.failed && r.articles == feed.articles && r.script == feed.script && r.totalTime == feed.totalTime
    ensures response.Succeeded? ==>
      && !r.failed
      && Contents(r.articles) == response.news
      && (forall i :: 0 <= i < |r.articles| ==> !r.articles[i].showFullText)
      && r.articles == FromResponse(response.news)
      && r.script == Summarize(r.articles)
      && StartsWith(r.script, Intro + " ")
      && r.totalTime > 0.0
      && r.totalTime == Duration(r.script, rate)
  {
    match response
    case Failed => feed.(failed := true)
    case Succeeded(news) =>
      var articles := FromResponse(news);
      FromResponseContents(news);
      var script := Summarize(articles);
      var total := Duration(script, rate);
      Feed(articles, script, total, false)
  }
}

=== FILE: news_player.dfy ===
/** The playback controller of the news screen. Its state is the record the
    screen keeps between renders: whether it shows itself as speaking, the
    elapsed seconds and progress percentage, whether the one-second progress
    tick is running, and the engine. Commands are the play/pause button and
    the per-headline speaker button; events are the engine's start and end
    callbacks and the tick. */
module NewsPlayer {
  import opened Options
  import opened Voices
  import opened Speech

  /** The progress bar value. `(elapsed / totalTime) * 100` is a JavaScript
      number: it is infinite when the total time is still zero. */
  datatype Progress = Percent(value: real) | Infinite

  datatype Player = Player(isSpeaking: bool, elapsed: nat, progress: Progress,
                           tickActive: bool, engine: Engine)

  /** What the controller reads but does not own: the selected voice, rate
      and pitch, the narration script and its estimated length. */
  datatype Settings = Settings(voice: Option<Voice>, rate: real, pitch: real,
                               script: string, totalTime: real)

  /** The next state and the engine calls issued on the way. */
  datatype Step = Step(player: Player, calls: seq<Call>)

  datatype Event = PlayPauseClicked | HeadlineClicked(title: string) | Started | Ended | Ticked

  const Initial: Player := Player(false, 0, Percent(0.0), false, FreshEngine)

  /** The progress after the tick that brings the elapsed time to
      `newTime` seconds. */
  function TickProgress(newTime: nat, totalTime: real): Progress
    requires newTime > 0
  {
    if totalTime == 0.0 then Infinite else Percent(newTime as real / totalTime * 100.0)
  }

  /** `speakText`: an utterance of the whole script is issued only when a
      voice is selected and the script is non-empty; nothing else changes. */
  function SpeakText(p: Player, s: Settings): (r: Step)
    ensures |r.calls| <= 1
    ensures |r.calls| == 1 <==> s.voice.Some? && |s.script| > 0
    ensures |r.calls| == 1 ==> r.calls[0] == Speak(Utterance(s.script, s.voice.value, s.rate, s.pitch))
    ensures r.player == p.(engine := ApplyAll(p.engine, r.calls))
  {
    if s.voice.Some? && |s.script| > 0 then
      var call := Speak(Utterance(s.script, s.voice.value, s.rate, s.pitch));
      Step(p.(engine := Apply(p.engine, call)), [call])
    else Step(p, [])
  }

  /** `handlePlayPause`. */
  function PlayPause(p: Player, s: Settings): (r: Step)
    ensures p.isSpeaking ==>
      && r.calls == [Pause] && r.player.engine.paused
      && !r.player.isSpeaking && !r.player.tickActive
      && r.player.elapsed == p.elapsed && r.player.progress == p.progress
    ensures !p.isSpeaking && p.engine.paused ==>
      && r.calls == [Resume] && !r.player.engine.paused
      && r.player.isSpeaking && r.player.tickActive
      && r.player.elapsed == p.elapsed && r.player.progress == p.progress
    ensures !p.isSpeaking && !p.engine.paused ==>
      && r.player.isSpeaking
      && r.player.tickActive == p.tickActive
      && r.player.elapsed == p.elapsed && r.player.progress == p.progress
      && (|r.calls| > 0 <==> s.voice.Some? && |s.script| > 0)
      && |r.calls| <= 1
      && (|r.calls| == 1 ==> r.calls[0] == Speak(Utterance(s.script, s.voice.value, s.rate, s.pitch)))
    ensures r.player.engine == ApplyAll(p.engine, r.calls)
  {
    if p.isSpeaking then
      Step(p.(engine := Apply(p.engine, Pause), tickActive := false, isSpeaking := false), [Pause])
    else if p.engine.paused then
      Step(p.(engine := Apply(p.engine, Resume), tickActive := true, isSpeaking := true), [Resume])
    else
      var spoken := SpeakText(p, s);
      Step(spoken.player.(isSpeaking := true), spoken.calls)
  }

  /** The speaker button beside a headline calls `speakText` with the title,
      which `speakText` ignores: whatever the title, it narrates the full
      script under the same condition as play does, and the screen's
      speaking flag, tick and progress are left as they were. */
  function Headline(p: Player, s: Settings, title: string): (r: Step)
    ensures |r.calls| == 1 <==> s.voice.Some? && |s.script| > 0
    ensures |r.calls| <= 1
    ensures |r.calls| == 1 ==> r.calls[0] == Speak(Utterance(s.script, s.voice.value, s.rate, s.pitch))
    ensures r.player.isSpeaking == p.isSpeaking && r.player.tickActive == p.tickActive
    ensures r.player.elapsed == p.elapsed && r.player.progress == p.progress
    ensures r.player.engine == ApplyAll(p.engine, r.calls)
  {
    SpeakText(p, s)
  }

  /** The utterance's `onstart`: the progress tick starts. */
  function OnStart(p: Player): (r: Player)
    ensures r.tickActive
    ensures r.(tickActive := p.tickActive) == p
  {
    p.(tickActive := true)
  }

  /** The utterance's `onend`: the tick stops, the screen stops speaking and
      elapsed time and progress return to zero, whatever else is still
      queued; the finished utterance leaves the queue. */
  function OnEnd(p: Player): (r: Player)
    ensures !r.tickActive && !r.isSpeaking
    ensures r.elapsed == 0 && r.progress == Percent(0.0)
    ensures r.engine.paused == p.engine.paused
    ensures p.engine.queued > 0 ==> r.engine.queued == p.engine.queued - 1
  {
    Player(false, 0, Percent(0.0), false, Finished(p.engine))
  }

  /** `updateElapsedTime`, run by the tick while it is active: one more
      second, and the progress recomputed from it without clamping. */
  function Tick(p: Player, totalTime: real): (r: Player)
    ensures !p.tickActive ==> r == p
    ensures p.tickActive ==> r.elapsed == p.elapsed + 1
    ensures p.tickActive && totalTime > 0.0 ==>
      r.progress.Percent? && r.progress.value * totalTime == r.elapsed as real * 100.0
    ensures r.isSpeaking == p.isSpeaking && r.tickActive == p.tickActive && r.engine == p.engine
  {
    if !p.tickActive then p
    else p.(elapsed := p.elapsed + 1, progress := TickProgress(p.elapsed + 1, totalTime))
  }

  /** One command or event. The buttons are wired to `handlePlayPause` and
      `speakText`; the start and end callbacks belong to queued utterances,
      so the engine delivers them only while one is queued or playing. */
  function Handle(p: Player, s: Settings, e: Event): (r: Step)
    ensures e.Started? || e.Ended? || e.Ticked? ==> r.calls == []
    ensures (e.Started? || e.Ended?) && p.engine.queued == 0 ==> r.player == p
    ensures e.Started? && p.engine.queued > 0 ==> r.player.tickActive && r.player.elapsed == p.elapsed
    ensures e.Ended? && p.engine.queued > 0 ==>
      && !r.player.isSpeaking && !r.player.tickActive && r.player.elapsed == 0
      && r.player.engine.queued == p.engine.queued - 1
    ensures e.HeadlineClicked? ==> r.player.isSpeaking == p.isSpeaking
    ensures e.PlayPauseClicked? ==> r.player.isSpeaking == !p.isSpeaking
    ensures e.PlayPauseClicked? ==> r == PlayPause(p, s)
    ensures e.HeadlineClicked? ==> r == Headline(p, s, e.title)
    ensures e.Ticked? ==> r.player == Tick(p, s.totalTime)
  {
    match e
    case PlayPauseClicked => PlayPause(p, s)
    case HeadlineClicked(title) => Headline(p, s, title)
    case Started => Step(if p.engine.queued > 0 then OnStart(p) else p, [])
    case Ended => Step(if p.engine.queued > 0 then OnEnd(p) else p, [])
    case Ticked => Step(Tick(p, s.totalTime), [])
  }

  /** A run of commands and events, with every engine call issued. */
  function Run(p: Player, s: Settings, events: seq<Event>): Step
    decreases |events|
  {
    if |events| == 0 then Step(p, [])
    else
      var first := Handle(p, s, events[0]);
      var rest := Run(first.player, s, events[1..]);
      Step(rest.player, first.calls + rest.calls)
  }

  /** The progress shown agrees with the elapsed time: zero before the first
      tick, otherwise the tick's percentage of the total time. */
  predicate Consistent(p: Player, totalTime: real) {
    if p.elapsed == 0 then p.progress == Percent(0.0)
    else p.progress == TickProgress(p.elapsed, totalTime)
  }

  /** The play/pause button never shows "pause" over a paused engine. */
  predicate ButtonMatchesEngine(p: Player) {
    p.isSpeaking ==> !p.engine.paused
  }

  lemma HandleConsistent(p: Player, s: Settings, e: Event)
    requires Consistent(p, s.totalTime) && ButtonMatchesEngine(p)
    ensures Consistent(Handle(p, s, e).player, s.totalTime)
    ensures ButtonMatchesEngine(Handle(p, s, e).player)
  {
  }

  /** Every run from a consistent state stays consistent, as long as the
      total time does not change. */
  lemma {:induction false} RunConsistent(p: Player, s: Settings, events: seq<Event>)
    requires Consistent(p, s.totalTime) && ButtonMatchesEngine(p)
    ensures Consistent(Run(p, s, events).player, s.totalTime)
    ensures ButtonMatchesEngine(Run(p, s, events).player)
    decreases |events|
  {
    if |events| > 0 {
      HandleConsistent(p, s, events[0]);
      RunConsistent(Handle(p, s, events[0]).player, s, events[1..]);
    }
  }

  /** Pausing and then pressing play again resumes where playback stopped:
      the state is exactly what it was. */
  lemma PauseThenResume(p: Player, s: Settings)
    requires p.isSpeaking && !p.engine.paused && p.tickActive
    ensures PlayPause(PlayPause(p, s).player, s).player == p
    ensures PlayPause(p, s).calls == [Pause] && PlayPause(PlayPause(p, s).player, s).calls == [Resume]
  {
  }

  /** The tick is not clamped: once the elapsed time passes the estimate the
      progress exceeds 100. */
  lemma ProgressUnclamped(p: Player, totalTime: real)
    requires p.tickActive && totalTime > 0.0 && (p.elapsed + 1) as real > totalTime
    ensures Tick(p, totalTime).progress.Percent?
    ensures Tick(p, totalTime).progress.value > 100.0
  {
  }

  /** Pressing play with no voice selected (or an empty script) marks the
      screen as speaking although no utterance is issued. */
  lemma SpeakingWithoutUtterance(s: Settings)
    requires s.voice.None? || |s.script| == 0
    ensures PlayPause(Initial, s).player.isSpeaking
    ensures PlayPause(Initial, s).calls == []
  {
  }

  /** Continuing from there: the next press pauses the silent engine and the
      one after resumes it, so the tick runs and elapsed time grows while
      nothing was ever spoken. */
  lemma SilentPlayback(s: Settings)
    requires s.voice.None?
    ensures var first := PlayPause(Initial, s);
      var second := PlayPause(first.player, s);
      var third := PlayPause(second.player, s);
      var ticked := Tick(third.player, s.totalTime);
      && first.calls + second.calls + third.calls == [Pause, Resume]
      && ticked.isSpeaking && ticked.tickActive && ticked.elapsed == 1
  {
  }

  /** The headline button and then play queue two utterances. The end of the
      first resets the screen, but the second is still queued: its own start
      callback restarts the tick, so the screen counts elapsed time again
      while showing itself as not speaking. */
  lemma SecondUtteranceRestartsTick(s: Settings)
    requires s.voice.Some? && |s.script| > 0
    ensures var headline := Headline(Initial, s, "");
      var played := PlayPause(headline.player, s);
      var ended := Handle(played.player, s, Ended);
      var started := Handle(ended.player, s, Started);
      var ticked := Tick(started.player, s.totalTime);
      && |headline.calls| == 1 && |played.calls| == 1
      && played.player.engine.queued == 2
      && !ended.player.tickActive && ended.player.engine.queued == 1
      && started.player.tickActive && !started.player.isSpeaking
      && ticked.elapsed == 1
  {
  }

  /** Play, the engine starts, five ticks, pause, play: elapsed time
      continues from five. */
  lemma ResumeContinuesElapsed(s: Settings)
    requires s.voice.Some? && |s.script| > 0
    ensures var played := PlayPause(Initial, s);
      var started := OnStart(played.player);
      var t := s.totalTime;
      var five := Tick(Tick(Tick(Tick(Tick(started, t), t), t), t), t);
      var paused := PlayPause(five, s);
      var resumed := PlayPause(paused.player, s);
      var six := Tick(resumed.player, t);
      && |played.calls| == 1 && played.calls[0].Speak?
      && paused.calls == [Pause] && paused.player.elapsed == 5
      && resumed.calls == [Resume] && resumed.player.elapsed == 5
      && six.elapsed == 6 && six.isSpeaking && six.tickActive
  {
  }
}

=== FILE: options.dfy ===
/** The optional value used across the model: JavaScript's `null`/`undefined`
    versus a present value. */
module Options {

  datatype Option<+T> = None | Some(value: T) {

    /** The value, or `default` when absent (JavaScript's `x || default`
        for values that are never falsy). */
    function GetOr(default: T): (r: T)
      ensures Some? ==> r == value
      ensures None? ==> r == default
    {
      match this
      case Some(v) => v
      case None => default
    }
  }
}

=== FILE: seqs.dfy ===
/** The JavaScript array operations the model uses: `filter`, `find`/
    `findIndex` and `slice(0, n)`, with the order-preservation facts the
    callers rely on. */
module Seqs {
  import opened Options

  /** `a` can be obtained from `b` by deleting elements, keeping order. */
  ghost predicate IsSubsequence<T>(a: seq<T>, b: seq<T>)
    decreases |b|
  {
    if |a| == 0 then true
    else if |b| == 0 then false
    else if a[0] == b[0] then IsSubsequence(a[1..], b[1..])
    else IsSubsequence(a, b[1..])
  }

  /** `s.filter(keep)`; `FilterSpec` says which elements it keeps. */
  function Filter<T>(s: seq<T>, keep: T -> bool): (r: seq<T>)
    ensures |r| <= |s|
    ensures (forall i :: 0 <= i < |s| ==> keep(s[i])) ==> r == s
    decreases |s|
  {
    if |s| == 0 then []
    else if keep(s[0]) then [s[0]] + Filter(s[1..], keep)
    else Filter(s[1..], keep)
  }

  /** `s.slice(0, n)`: the first `n` elements, or all of them when there are
      fewer. */
  function Take<T>(s: seq<T>, n: nat): (r: seq<T>)
    ensures |r| == if n <= |s| then n else |s|
    ensures forall i :: 0 <= i < |r| ==> r[i] == s[i]
  {
    if n <= |s| then s[..n] else s
  }

  /** `s.findIndex(p)`: the first index whose element satisfies `p`,
      `None` for -1. */
  function FindIndex<T>(s: seq<T>, p: T -> bool): (r: Option<nat>)
    ensures r.Some? ==> r.value < |s| && p(s[r.value])
    ensures r.Some? ==> forall j :: 0 <= j < r.value ==> !p(s[j])
    ensures r.None? ==> forall j :: 0 <= j < |s| ==> !p(s[j])
    decreases |s|
  {
    if |s| == 0 then None
    else if p(s[0]) then Some(0)
    else match FindIndex(s[1..], p)
      case Some(i) => Some(i + 1)
      case None => None
  }

  lemma {:induction false} SubsequenceOfSelf<T>(s: seq<T>)
    ensures IsSubsequence(s, s)
    decreases |s|
  {
    if |s| > 0 {
      SubsequenceOfSelf(s[1..]);
    }
  }

  lemma {:induction false} SubsequenceDrop<T>(a: seq<T>, b: seq<T>)
    requires |a| > 0 && IsSubsequence(a, b)
    ensures IsSubsequence(a[1..], b)
    decreases |b|, 0
  {
    if a[0] == b[0] {
      SubsequenceExtend(a[1..], b[1..], b[0]);
    } else {
      SubsequenceDrop(a, b[1..]);
      SubsequenceExtend(a[1..], b[1..], b[0]);
    }
  }

  lemma {:induction false} SubsequenceExtend<T>(a: seq<T>, b: seq<T>, x: T)
    requires IsSubsequence(a, b)
    ensures IsSubsequence(a, [x] + b)
    decreases |b|, 1
  {
    assert ([x] + b)[1..] == b;
    if |a| > 0 && a[0] == x {
      SubsequenceDrop(a, b);
    }
  }

  /** Every prefix of a subsequence is a subsequence. */
  lemma {:induction false} PrefixSubsequence<T>(a: seq<T>, b: seq<T>, n: nat)
    requires IsSubsequence(a, b) && n <= |a|
    ensures IsSubsequence(a[..n], b)
    decreases |b|
  {
    if n > 0 {
      if a[0] == b[0] {
        PrefixSubsequence(a[1..], b[1..], n - 1);
        assert a[..n][1..] == a[1..][..n - 1];
      } else {
        PrefixSubsequence(a, b[1..], n);
      }
    }
  }

  /** `Filter` keeps exactly the elements satisfying `keep`, each as many
      times as it occurs, in their original order. */
  lemma {:induction false} FilterSpec<T>(s: seq<T>, keep: T -> bool)
    ensures IsSubsequence(Filter(s, keep), s)
    ensures forall i :: 0 <= i < |Filter(s, keep)| ==> keep(Filter(s, keep)[i])
    ensures forall x :: multiset(Filter(s, keep))[x] == if keep(x) then multiset(s)[x] else 0
    decreases |s|
  {
    if |s| > 0 {
      var tail := Filter(s[1..], keep);
      FilterSpec(s[1..], keep);
      assert s == [s[0]] + s[1..];
      assert multiset(s) == multiset{s[0]} + multiset(s[1..]);
      if keep(s[0]) {
        assert ([s[0]] + tail)[1..] == tail;
        assert multiset([s[0]] + tail) == multiset{s[0]} + multiset(tail);
      } else {
        SubsequenceExtend(tail, s[1..], s[0]);
      }
    }
  }
}

=== FILE: speech.dfy ===
/** The platform speech engine, seen from the outside. Only the two facts
    the controllers consult are kept: whether the engine is paused (the
    `paused` attribute of the Web Speech API, changed by `pause()` and
    `resume()` only) and how many utterances are queued or playing. Each
    queued utterance keeps its own start and end callbacks, so the count
    says how many of those callbacks can still arrive. */
module Speech {
  import opened Voices

  /** One speech request: the text with the voice, rate and pitch in force
      when it was issued. */
  datatype Utterance = Utterance(text: string, voice: Voice, rate: real, pitch: real)

  datatype Engine = Engine(paused: bool, queued: nat)

  /** The engine operations the controllers call. */
  datatype Call = Speak(utterance: Utterance) | Pause | Resume | Cancel

  const FreshEngine: Engine := Engine(false, 0)

  /** The engine after one call. `speak` appends to the queue (it does not
      unpause), `cancel` empties the queue (it does not unpause either). */
  function Apply(e: Engine, c: Call): (r: Engine)
    ensures c.Pause? || c.Resume? ==> r.queued == e.queued
    ensures c.Pause? ==> r.paused
    ensures c.Resume? ==> !r.paused
    ensures c.Speak? ==> r.queued == e.queued + 1
    ensures c.Cancel? ==> r.queued == 0
    ensures c.Speak? || c.Cancel? ==> r.paused == e.paused
  {
    match c
    case Speak(_) => e.(queued := e.queued + 1)
    case Pause => e.(paused := true)
    case Resume => e.(paused := false)
    case Cancel => e.(queued := 0)
  }

  function ApplyAll(e: Engine, calls: seq<Call>): Engine
    decreases |calls|
  {
    if |calls| == 0 then e else ApplyAll(Apply(e, calls[0]), calls[1..])
  }

  /** The engine once the utterance at the head of the queue has finished
      speaking; with nothing queued there is nothing to finish. */
  function Finished(e: Engine): (r: Engine)
    ensures e.queued > 0 ==> r.queued == e.queued - 1
    ensures e.queued == 0 ==> r.queued == 0
    ensures r.paused == e.paused
  {
    if e.queued > 0 then e.(queued := e.queued - 1) else e
  }
}

=== FILE: summarizer.dfy ===
/** The summarizer of the news screen: every article text is joined into one
    blob, the blob is cut into sentences at ". ", substantive sentences
    (longer than 50 characters) are preferred, and the selection is wrapped
    in the podcast intro. Also the narration-length estimate at 200 words
    per minute. */
module Summarizer {
  import opened Text
  import opened Seqs
  import opened Articles

  /** The fixed opening of the news-screen narration. */
  const Intro: string := "Welcome to Jarayed, your go-to podcast for the latest news summaries. Today, we are bringing you the most important stories."
  const SentenceSeparator: string := ". "
  /** A sentence is substantive when it is longer than this many characters. */
  const MinSentenceLength: nat := 50
  /** How many substantive sentences are taken when there are enough of them. */
  const SubstantiveCount: nat := 10
  /** How many raw sentences the fallback takes. */
  const FallbackCount: nat := 15
  const WordsPerMinute: real := 200.0

  function Texts(articles: seq<Article>): (r: seq<string>)
    ensures |r| == |articles|
    ensures forall i :: 0 <= i < |r| ==> r[i] == articles[i].text
  {
    seq(|articles|, i requires 0 <= i < |articles| => articles[i].text)
  }

  /** The text blob: the article texts in article order, one space between
      consecutive texts (`AllTextCons`). */
  function AllText(articles: seq<Article>): (r: string)
    ensures |articles| == 0 ==> r == ""
    ensures |articles| == 1 ==> r == articles[0].text
    ensures |articles| >= 1 ==> StartsWith(r, articles[0].text)
  {
    Join(Texts(articles), " ")
  }

  /** The blob of several articles is the first text, a space, and the blob
      of the rest. */
  lemma {:induction false} AllTextCons(first: Article, rest: seq<Article>)
    requires |rest| >= 1
    ensures AllText([first] + rest) == first.text + " " + AllText(rest)
  {
    assert Texts([first] + rest) == [first.text] + Texts(rest);
    JoinCons(first.text, Texts(rest), " ");
  }

  /** `allText.split(". ")`: never empty, no sentence contains the
      separator, and re-joining the sentences gives back the blob. */
  function Sentences(articles: seq<Article>): (r: seq<string>)
    ensures |r| >= 1
    ensures Join(r, SentenceSeparator) == AllText(articles)
    ensures forall k :: 0 <= k < |r| ==> Free(r[k], SentenceSeparator)
  {
    JoinSplit(AllText(articles), SentenceSeparator);
    SplitPiecesFree(AllText(articles), SentenceSeparator);
    Split(AllText(articles), SentenceSeparator)
  }

  predicate Substantive(sentence: string) {
    |sentence| > MinSentenceLength
  }

  /** The sentences of `sentences` that are substantive, in order. */
  function SubstantiveSentences(sentences: seq<string>): seq<string> {
    Filter(sentences, Substantive)
  }

  /** The selection policy: the first ten substantive sentences if there are
      at least ten, else the first fifteen sentences whatever their length.
      Either way the selection keeps the order of the sentences it is drawn
      from, holds at most fifteen of them, and holds at least one when there
      is any sentence. */
  function Selection(sentences: seq<string>): (r: seq<string>)
    ensures |r| <= FallbackCount
    ensures |sentences| >= 1 ==> |r| >= 1
    ensures IsSubsequence(r, sentences)
    ensures forall i :: 0 <= i < |r| ==> r[i] in sentences
  {
    var long := SubstantiveSentences(sentences);
    FilterSpec(sentences, Substantive);
    if |long| >= SubstantiveCount then
      PrefixSubsequence(long, sentences, SubstantiveCount);
      assert forall i :: 0 <= i < |long| ==> multiset(long)[long[i]] > 0;
      long[..SubstantiveCount]
    else
      SubsequenceOfSelf(sentences);
      PrefixSubsequence(sentences, sentences, if FallbackCount <= |sentences| then FallbackCount else |sentences|);
      Take(sentences, FallbackCount)
  }

  /** The two branches of the selection policy. */
  lemma SelectionBranches(sentences: seq<string>)
    ensures var long := SubstantiveSentences(sentences);
      |long| >= SubstantiveCount ==>
        && |Selection(sentences)| == SubstantiveCount
        && Selection(sentences) == long[..SubstantiveCount]
        && forall i :: 0 <= i < SubstantiveCount ==> |Selection(sentences)[i]| > MinSentenceLength
    ensures var long := SubstantiveSentences(sentences);
      |long| < SubstantiveCount ==>
        Selection(sentences) == sentences[..if |sentences| <= FallbackCount then |sentences| else FallbackCount]
  {
    FilterSpec(sentences, Substantive);
  }

  /** `summarizeArticles`: intro, a space, the selected sentences joined by
      ". ", and a closing ".". */
  function Summarize(articles: seq<Article>): (script: string)
    ensures StartsWith(script, Intro + " ")
    ensures |script| >= |Intro| + 2 && script[|script| - 1] == '.'
  {
    Intro + " " + Join(Selection(Sentences(articles)), SentenceSeparator) + "."
  }

  /** The part of a script between the intro and the closing period. */
  function Body(script: string): string
    requires |script| >= |Intro| + 2
  {
    script[|Intro| + 1..|script| - 1]
  }

  lemma SeparatorBorderFree()
    ensures BorderFree(SentenceSeparator)
  {
    assert SentenceSeparator[1..][0] == ' ' && SentenceSeparator[..1][0] == '.';
  }

  /** Splitting the narrated body at ". " recovers exactly the selected
      sentences: the script loses no sentence boundary and adds none. */
  lemma BodyRoundTrip(articles: seq<Article>)
    ensures Split(Body(Summarize(articles)), SentenceSeparator) == Selection(Sentences(articles))
  {
    var sentences := Sentences(articles);
    var selected := Selection(sentences);
    var joined := Join(selected, SentenceSeparator);
    assert Body(Summarize(articles)) == joined;
    SeparatorBorderFree();
    forall k | 0 <= k < |selected| ensures Free(selected[k], SentenceSeparator) {
      var j :| 0 <= j < |sentences| && sentences[j] == selected[k];
    }
    SplitJoin(selected, SentenceSeparator);
  }

  /** With no articles the blob is empty, splitting it gives one empty
      sentence, and the script is the intro followed by " .". */
  lemma NoArticles()
    ensures Summarize([]) == Intro + " ."
  {
  }

  /** With fewer than ten substantive sentences and at most fifteen
      sentences in all, the script narrates the whole blob verbatim. */
  lemma ShortInputVerbatim(articles: seq<Article>)
    requires |SubstantiveSentences(Sentences(articles))| < SubstantiveCount
    requires |Sentences(articles)| <= FallbackCount
    ensures Summarize(articles) == Intro + " " + AllText(articles) + "."
  {
    SelectionBranches(Sentences(articles));
    assert Sentences(articles)[..|Sentences(articles)|] == Sentences(articles);
  }

  /** `text.split(" ").length`: one more than the number of spaces. */
  function WordCount(text: string): (n: nat)
    ensures n == CountChar(text, ' ') + 1
  {
    SplitCount(text, ' ');
    |Split(text, [' '])|
  }

  /** `calculateDuration`: the estimated narration length in seconds,
      exact over the reals. */
  function Duration(text: string, rate: real): (seconds: real)
    requires rate > 0.0
    ensures seconds * rate * WordsPerMinute == (CountChar(text, ' ') + 1) as real * 60.0
    ensures seconds > 0.0
  {
    ((WordCount(text) as real / WordsPerMinute) * 60.0) / rate
  }

  /** Doubling the rate halves the estimate for the same script. */
  lemma DoubleRateHalves(text: string, rate: real)
    requires rate > 0.0
    ensures Duration(text, 2.0 * rate) == Duration(text, rate) / 2.0
  {
  }
}

=== FILE: summary_player.dfy ===
/** The playback controller of the summary page: a single `isSpeaking`
    flag beside the engine, with play, pause, resume and stop commands each
    guarded on its own, a play/pause button dispatching among them, and the
    utterance's end callback. There is no progress bookkeeping here. */
module SummaryPlayer {
  import opened Options
  import opened Text
  import opened Voices
  import opened Speech

  /** The opening of the summary-page narration (worded "we're", unlike the
      news screen's "we are"). */
  const Intro: string := "Welcome to Jarayed, your go-to podcast for the latest news summaries. Today, we're bringing you the most important stories."

  /** The navigation state the page is opened with. A state object that
      lacks a summary is `RouteState(None)`. */
  datatype RouteState = RouteState(summary: Option<string>)

  datatype Player = Player(isSpeaking: bool, engine: Engine)

  datatype Settings = Settings(voice: Option<Voice>, rate: real, pitch: real, text: string)

  datatype Step = Step(player: Player, calls: seq<Call>)

  const Initial: Player := Player(false, FreshEngine)

  /** `fullText`: the intro, a space, and the summary. Without navigation
      state the summary is empty; with a state object lacking a summary the
      template literal renders it as "undefined". */
  function FullText(route: Option<RouteState>): (text: string)
    ensures StartsWith(text, Intro + " ")
    ensures route.None? ==> text == Intro + " "
    ensures route.Some? && route.value.summary.Some? ==> text[|Intro| + 1..] == route.value.summary.value
    ensures route.Some? && route.value.summary.None? ==> text == Intro + " undefined"
  {
    match route
    case None => Intro + " "
    case Some(RouteState(summary)) => Intro + " " + summary.GetOr("undefined")
  }

  /** `speakText`: acts only when not speaking and a voice is selected; it
      then issues one utterance of the full text and marks the page as
      speaking. */
  function SpeakText(p: Player, s: Settings): (r: Step)
    ensures (!p.isSpeaking && s.voice.Some?) ==>
      && r.calls == [Speak(Utterance(s.text, s.voice.value, s.rate, s.pitch))]
      && r.player.isSpeaking && r.player.engine.queued == p.engine.queued + 1
      && r.player.engine.paused == p.engine.paused
    ensures !(!p.isSpeaking && s.voice.Some?) ==> r == Step(p, [])
  {
    if !p.isSpeaking && s.voice.Some? then
      var call := Speak(Utterance(s.text, s.voice.value, s.rate, s.pitch));
      Step(Player(true, Apply(p.engine, call)), [call])
    else Step(p, [])
  }

  /** `pauseSpeech`: acts only when speaking; pauses the engine and clears
      the flag. */
  function PauseSpeech(p: Player): (r: Step)
    ensures p.isSpeaking ==>
      r.calls == [Pause] && !r.player.isSpeaking && r.player.engine.paused
      && r.player.engine.queued == p.engine.queued
    ensures !p.isSpeaking ==> r == Step(p, [])
  {
    if p.isSpeaking then Step(Player(false, Apply(p.engine, Pause)), [Pause])
    else Step(p, [])
  }

  /** `resumeSpeech`: acts only when not speaking and the engine is paused;
      resumes it and sets the flag. */
  function ResumeSpeech(p: Player): (r: Step)
    ensures !p.isSpeaking && p.engine.paused ==>
      r.calls == [Resume] && r.player.isSpeaking && !r.player.engine.paused
      && r.player.engine.queued == p.engine.queued
    ensures !(!p.isSpeaking && p.engine.paused) ==> r == Step(p, [])
  {
    if !p.isSpeaking && p.engine.paused then Step(Player(true, Apply(p.engine, Resume)), [Resume])
    else Step(p, [])
  }

  /** `stopSpeech`: acts exactly when speaking or the engine is paused;
      cancels the engine and leaves the page not speaking. */
  function StopSpeech(p: Player): (r: Step)
    ensures (p.isSpeaking || p.engine.paused) <==> r.calls == [Cancel]
    ensures (p.isSpeaking || p.engine.paused) ==> !r.player.isSpeaking && r.player.engine.queued == 0
    ensures !(p.isSpeaking || p.engine.paused) ==> r == Step(p, [])
  {
    if p.isSpeaking || p.engine.paused then Step(Player(false, Apply(p.engine, Cancel)), [Cancel])
    else Step(p, [])
  }

  /** `handlePlayPause`: pause when speaking, else resume a paused engine,
      else start speaking. */
  function PlayPause(p: Player, s: Settings): (r: Step)
    ensures p.isSpeaking ==> r.calls == [Pause] && !r.player.isSpeaking && r.player.engine.paused
    ensures !p.isSpeaking && p.engine.paused ==> r.calls == [Resume] && r.player.isSpeaking && !r.player.engine.paused
    ensures !p.isSpeaking && !p.engine.paused ==>
      && (r.player.isSpeaking <==> s.voice.Some?)
      && (s.voice.Some? ==> r.calls == [Speak(Utterance(s.text, s.voice.value, s.rate, s.pitch))])
      && (s.voice.None? ==> r == Step(p, []))
    ensures r.player.engine == ApplyAll(p.engine, r.calls)
  {
    if p.isSpeaking then PauseSpeech(p)
    else if p.engine.paused then ResumeSpeech(p)
    else SpeakText(p, s)
  }

  /** The utterance's `onend`: the page stops speaking, and the finished
      utterance leaves the queue. */
  function OnEnd(p: Player): (r: Player)
    ensures !r.isSpeaking
    ensures r.engine.paused == p.engine.paused
    ensures p.engine.queued > 0 ==> r.engine.queued == p.engine.queued - 1
  {
    Player(false, Finished(p.engine))
  }

  datatype Event = PlayPauseClicked | StopClicked | Ended

  /** One command or event. The end callback belongs to a queued
      utterance, so the engine delivers it only while one is queued or
      playing. */
  function Handle(p: Player, s: Settings, e: Event): (r: Step)
    ensures e.Ended? ==> r.calls == []
    ensures e.Ended? && p.engine.queued == 0 ==> r.player == p
    ensures e.Ended? && p.engine.queued > 0 ==>
      !r.player.isSpeaking && r.player.engine.queued == p.engine.queued - 1
    ensures e.StopClicked? ==> !r.player.isSpeaking
    ensures e.StopClicked? && (p.isSpeaking || p.engine.paused) ==> r.player.engine.queued == 0
    ensures e.PlayPauseClicked? ==> r == PlayPause(p, s)
    ensures e.StopClicked? ==> r == StopSpeech(p)
  {
    match e
    case PlayPauseClicked => PlayPause(p, s)
    case StopClicked => StopSpeech(p)
    case Ended => Step(if p.engine.queued > 0 then OnEnd(p) else p, [])
  }

  function Run(p: Player, s: Settings, events: seq<Event>): Step
    decreases |events|
  {
    if |events| == 0 then Step(p, [])
    else
      var first := Handle(p, s, events[0]);
      var rest := Run(first.player, s, events[1..]);
      Step(rest.player, first.calls + rest.calls)
  }

  /** The play/pause button never shows "pause" over a paused engine. */
  predicate ButtonMatchesEngine(p: Player) {
    p.isSpeaking ==> !p.engine.paused
  }

  lemma HandleKeepsButton(p: Player, s: Settings, e: Event)
    requires ButtonMatchesEngine(p)
    ensures ButtonMatchesEngine(Handle(p, s, e).player)
  {
  }

  /** From any state where it holds, every run of commands and events keeps
      the button in step with the engine. */
  lemma {:induction false} RunKeepsButton(p: Player, s: Settings, events: seq<Event>)
    requires ButtonMatchesEngine(p)
    ensures ButtonMatchesEngine(Run(p, s, events).player)
    decreases |events|
  {
    if |events| > 0 {
      HandleKeepsButton(p, s, events[0]);
      RunKeepsButton(Handle(p, s, events[0]).player, s, events[1..]);
    }
  }

  /** The play/pause button toggles the page between speaking and paused:
      pressing it twice from a speaking, unpaused page restores the page
      and issues a pause followed by a resume. */
  lemma PlayPauseTwice(p: Player, s: Settings)
    requires p.isSpeaking && !p.engine.paused
    ensures PlayPause(PlayPause(p, s).player, s).player == p
    ensures PlayPause(p, s).calls + PlayPause(PlayPause(p, s).player, s).calls == [Pause, Resume]
  {
  }

  /** From the initial page, play starts narrating exactly when a voice is
      selected, and then stop returns the page to rest. */
  lemma PlayThenStop(s: Settings)
    ensures var played := PlayPause(Initial, s);
      && (played.player.isSpeaking <==> s.voice.Some?)
      && (s.voice.Some? ==> StopSpeech(played.player).player == Initial)
  {
  }

  /** Stopping a paused page cancels the utterance but leaves the engine
      paused, so stop stays enabled and the next play/pause press takes the
      resume branch instead of starting a new utterance. */
  lemma StopWhilePaused(p: Player, s: Settings)
    requires !p.isSpeaking && p.engine.paused
    ensures var stopped := StopSpeech(p).player;
      && stopped.engine.paused
      && StopSpeech(stopped).calls == [Cancel]
      && PlayPause(stopped, s).calls == [Resume]
  {
  }

  /** Play, pause, stop, play: the last press resumes the engine that stop
      left paused, and the page shows itself as speaking although the
      utterance was cancelled and nothing is queued. */
  lemma SpeakingAfterStop(s: Settings)
    requires s.voice.Some?
    ensures var played := PlayPause(Initial, s).player;
      var paused := PlayPause(played, s).player;
      var stopped := StopSpeech(paused).player;
      var again := PlayPause(stopped, s);
      && again.calls == [Resume]
      && again.player.isSpeaking && again.player.engine.queued == 0
  {
  }
}

=== FILE: text.dfy ===
/** The JavaScript string operations the narration pipeline relies on:
    `indexOf`, `includes`, `startsWith`, `split` with a non-empty literal
    separator, and `Array.prototype.join`. `split` follows section 22.1.3.23
    of ECMA-262 (2024 edition): the string is scanned left to right, each
    leftmost occurrence of the separator ends a piece, and the remainder after
    the last occurrence is the final piece, so there is always at least one. */
module Text {
  /** `sep` occurs in `s` starting at index `i`. */
  predicate Occurs(s: string, sep: string, i: int) {
    0 <= i && i + |sep| <= |s| && s[i..i + |sep|] == sep
  }

  /** `sep` occurs nowhere in `s`. */
  predicate Free(s: string, sep: string) {
    forall j | 0 <= j <= |s| :: !Occurs(s, sep, j)
  }

  lemma {:induction false} OccursShift(s: string, sep: string, j: int)
    requires |s| > 0 && j >= 0
    ensures Occurs(s, sep, j + 1) <==> Occurs(s[1..], sep, j)
  {
    if 0 <= j && j + 1 + |sep| <= |s| {
      assert s[1..][j..j + |sep|] == s[j + 1..j + 1 + |sep|];
    }
  }

  /** `s.indexOf(sep)`: the leftmost occurrence of `sep` in `s`, or -1
      (see `IndexOfSpec`). */
  function IndexOf(s: string, sep: string): (r: int)
    ensures -1 <= r
    ensures r >= 0 ==> r + |sep| <= |s|
    decreases |s|
  {
    if |s| < |sep| then -1
    else if s[..|sep|] == sep then 0
    else
      var tail := IndexOf(s[1..], sep);
      if tail >= 0 then tail + 1 else -1
  }

  /** `IndexOf` finds the leftmost occurrence, and reports -1 exactly when
      there is none. */
  lemma {:induction false} IndexOfSpec(s: string, sep: string)
    ensures IndexOf(s, sep) >= 0 ==> Occurs(s, sep, IndexOf(s, sep))
    ensures IndexOf(s, sep) >= 0 ==> forall j :: 0 <= j < IndexOf(s, sep) ==> !Occurs(s, sep, j)
    ensures IndexOf(s, sep) == -1 <==> Free(s, sep)
    decreases |s|
  {
    if |s| < |sep| {
    } else if s[..|sep|] == sep {
      assert Occurs(s, sep, 0);
    } else {
      IndexOfSpec(s[1..], sep);
      assert !Occurs(s, sep, 0);
      forall j | j >= 0 ensures Occurs(s, sep, j + 1) <==> Occurs(s[1..], sep, j) {
        OccursShift(s, sep, j);
      }
      assert forall j :: Occurs(s, sep, j) ==> Occurs(s[1..], sep, j - 1);
    }
  }

  /** `s.includes(sub)`. */
  predicate Includes(s: string, sub: string) {
    IndexOf(s, sub) >= 0
  }

  /** `s.startsWith(prefix)`. */
  predicate StartsWith(s: string, prefix: string) {
    |prefix| <= |s| && s[..|prefix|] == prefix
  }

  /** `s.split(sep)` for a non-empty separator. */
  function Split(s: string, sep: string): (pieces: seq<string>)
    requires |sep| > 0
    ensures |pieces| >= 1
    decreases |s|
  {
    var i := IndexOf(s, sep);
    if i < 0 then [s] else [s[..i]] + Split(s[i + |sep|..], sep)
  }

  /** `pieces.join(sep)`; the empty array joins to the empty string. The
      result opens with the first piece and, when there are several, the
      separator right after it; `JoinSplit` and `SplitJoin` relate it to
      `Split`. */
  function Join(pieces: seq<string>, sep: string): (r: string)
    ensures |pieces| == 0 ==> r == ""
    ensures |pieces| >= 1 ==> StartsWith(r, pieces[0])
    ensures |pieces| >= 2 ==> StartsWith(r, pieces[0] + sep)
    decreases |pieces|
  {
    if |pieces| == 0 then ""
    else if |pieces| == 1 then pieces[0]
    else pieces[0] + sep + Join(pieces[1..], sep)
  }

  /** Number of occurrences of the character `c` in `s`. */
  function CountChar(s: string, c: char): nat
    decreases |s|
  {
    if |s| == 0 then 0
    else (if s[0] == c then 1 else 0) + CountChar(s[1..], c)
  }

  lemma {:induction false} JoinCons(head: string, tail: seq<string>, sep: string)
    requires |tail| >= 1
    ensures Join([head] + tail, sep) == head + sep + Join(tail, sep)
  {
    assert ([head] + tail)[1..] == tail;
  }

  lemma {:induction false} SplitFound(s: string, sep: string, i: nat)
    requires |sep| > 0 && IndexOf(s, sep) == i
    ensures i + |sep| <= |s|
    ensures Split(s, sep) == [s[..i]] + Split(s[i + |sep|..], sep)
  {
  }

  lemma {:induction false} Around(s: string, sep: string, i: nat)
    requires Occurs(s, sep, i)
    ensures s == s[..i] + sep + s[i + |sep|..]
  {
    assert s == s[..i] + s[i..i + |sep|] + s[i + |sep|..];
  }

  /** Re-joining the pieces of a split with the same separator gives back
      the original string. */
  lemma {:induction false} JoinSplit(s: string, sep: string)
    requires |sep| > 0
    ensures Join(Split(s, sep), sep) == s
    decreases |s|
  {
    var i := IndexOf(s, sep);
    if i >= 0 {
      IndexOfSpec(s, sep);
      SplitFound(s, sep, i);
      Around(s, sep, i);
      var rest := s[i + |sep|..];
      JoinSplit(rest, sep);
      JoinCons(s[..i], Split(rest, sep), sep);
    }
  }

  /** No piece produced by a split contains the separator. */
  lemma {:induction false} SplitPiecesFree(s: string, sep: string)
    requires |sep| > 0
    ensures forall k :: 0 <= k < |Split(s, sep)| ==> Free(Split(s, sep)[k], sep)
    decreases |s|
  {
    var i := IndexOf(s, sep);
    IndexOfSpec(s, sep);
    if i >= 0 {
      SplitFound(s, sep, i);
      var rest := s[i + |sep|..];
      SplitPiecesFree(rest, sep);
      var head := s[..i];
      forall j ensures !Occurs(head, sep, j) {
        if Occurs(head, sep, j) {
          assert s[j..j + |sep|] == head[j..j + |sep|];
          assert Occurs(s, sep, j);
        }
      }
    }
  }

  /** The separator has no proper border: no non-empty proper suffix of it
      is also a prefix of it. For such a separator an occurrence cannot
      straddle the end of a piece that is free of it. */
  predicate BorderFree(sep: string) {
    forall k :: 0 < k < |sep| ==> sep[k..] != sep[..|sep| - k]
  }

  lemma {:induction false} IndexOfAfterFreePiece(p: string, sep: string, rest: string)
    requires |sep| > 0 && BorderFree(sep) && Free(p, sep)
    ensures IndexOf(p + sep + rest, sep) == |p|
  {
    var s := p + sep + rest;
    IndexOfSpec(s, sep);
    assert s[|p|..|p| + |sep|] == sep;
    assert Occurs(s, sep, |p|);
    forall j | 0 <= j < |p| ensures !Occurs(s, sep, j) {
      if j + |sep| <= |p| {
        assert s[j..j + |sep|] == p[j..j + |sep|];
        assert !Occurs(p, sep, j);
      } else {
        var k := |p| - j;
        var w := s[j..j + |sep|];
        assert w[k..] == s[|p|..j + |sep|];
        assert s[|p|..j + |sep|] == s[|p|..|p| + |sep|][..|sep| - k];
        assert sep[k..] != sep[..|sep| - k];
        assert w[k..] != sep[k..];
        assert w != sep;
      }
    }
  }

  /** Splitting a join gives back the pieces, provided none of them
      contains the separator and the separator has no border. */
  lemma {:induction false} SplitJoin(pieces: seq<string>, sep: string)
    requires |sep| > 0 && BorderFree(sep)
    requires |pieces| >= 1
    requires forall k :: 0 <= k < |pieces| ==> Free(pieces[k], sep)
    ensures Split(Join(pieces, sep), sep) == pieces
    decreases |pieces|
  {
    if |pieces| == 1 {
      IndexOfSpec(pieces[0], sep);
    } else {
      var head, tail := pieces[0], pieces[1..];
      var rest := Join(tail, sep);
      SplitJoin(tail, sep);
      var s := head + sep + rest;
      assert Join(pieces, sep) == s;
      IndexOfAfterFreePiece(head, sep, rest);
      SplitFound(s, sep, |head|);
      assert s[..|head|] == head;
      assert s[|head| + |sep|..] == rest;
      assert pieces == [head] + tail;
    }
  }

  lemma {:induction false} CountCharAppend(a: string, b: string, c: char)
    ensures CountChar(a + b, c) == CountChar(a, c) + CountChar(b, c)
    decreases |a|
  {
    if |a| == 0 {
      assert a + b == b;
    } else {
      CountCharAppend(a[1..], b, c);
      assert (a + b)[1..] == a[1..] + b;
    }
  }

  lemma {:induction false} CountCharFree(s: string, c: char)
    requires Free(s, [c])
    ensures CountChar(s, c) == 0
    decreases |s|
  {
    if |s| > 0 {
      assert !Occurs(s, [c], 0);
      assert s[0] != c;
      forall j | 0 <= j <= |s| - 1 ensures !Occurs(s[1..], [c], j) {
        OccursShift(s, [c], j);
      }
      CountCharFree(s[1..], c);
    }
  }

  /** Splitting on a one-character separator yields one more piece than
      there are occurrences of that character. */
  lemma {:induction false} SplitCount(s: string, c: char)
    ensures |Split(s, [c])| == CountChar(s, c) + 1
    decreases |s|
  {
    var i := IndexOf(s, [c]);
    IndexOfSpec(s, [c]);
    if i < 0 {
      CountCharFree(s, c);
    } else {
      var rest := s[i + 1..];
      SplitFound(s, [c], i);
      SplitCount(rest, c);
      forall j ensures !Occurs(s[..i], [c], j) {
        if Occurs(s[..i], [c], j) {
          assert s[j..j + 1] == s[..i][j..j + 1];
          assert Occurs(s, [c], j);
        }
      }
      CountCharFree(s[..i], c);
      assert s[i..i + 1] == [c];
      assert s == s[..i] + [c] + rest;
      CountCharAppend(s[..i] + [c], rest, c);
      CountCharAppend(s[..i], [c], c);
      assert CountChar([c], c) == 1 + CountChar([], c);
    }
  }
}

=== FILE: voices.dfy ===
/** Voice selection. The news screen keeps a short English picker (the
    first four voices whose language tag starts with "en") and always
    re-selects its default from it, preferring a voice named like "Daniel".
    The summary page offers the whole catalog and picks the first voice only
    when nothing is selected yet. The summary page also shows friendly
    aliases for well-known voice names. */
module Voices {
  import opened Options
  import opened Text
  import opened Seqs

  /** A catalog entry of the platform's speech engine. */
  datatype Voice = Voice(name: string, lang: string)

  /** What a voice-loading pass leaves behind: the voices offered in the
      picker and the selected voice. */
  datatype VoiceState = VoiceState(voices: seq<Voice>, selected: Option<Voice>)

  const PoolSize: nat := 4
  const PreferredName: string := "Daniel"

  predicate IsEnglish(v: Voice) {
    StartsWith(v.lang, "en")
  }

  predicate IsPreferred(v: Voice) {
    Includes(v.name, PreferredName)
  }

  /** The news screen's picker: the first four English voices of the
      catalog, in catalog order (all of them when there are fewer). */
  function EnglishPool(catalog: seq<Voice>): (pool: seq<Voice>)
    ensures var english := Filter(catalog, IsEnglish);
      |pool| == if |english| <= PoolSize then |english| else PoolSize
    ensures pool == Filter(catalog, IsEnglish)[..|pool|]
    ensures forall i :: 0 <= i < |pool| ==> IsEnglish(pool[i])
    ensures IsSubsequence(pool, catalog)
  {
    var english := Filter(catalog, IsEnglish);
    FilterSpec(catalog, IsEnglish);
    PrefixSubsequence(english, catalog, if PoolSize <= |english| then PoolSize else |english|);
    Take(english, PoolSize)
  }

  /** With at most four English voices in the catalog, every one of them is
      offered. */
  lemma {:induction false} SmallCatalogFullyOffered(catalog: seq<Voice>)
    requires |Filter(catalog, IsEnglish)| <= PoolSize
    ensures forall v :: v in catalog && IsEnglish(v) ==> v in EnglishPool(catalog)
  {
    FilterSpec(catalog, IsEnglish);
    forall v | v in catalog && IsEnglish(v) ensures v in EnglishPool(catalog) {
      assert multiset(catalog)[v] > 0;
      assert multiset(Filter(catalog, IsEnglish))[v] > 0;
    }
  }

  /** `pool.find(name includes "Daniel") || pool[0]`. */
  function DefaultVoice(pool: seq<Voice>): (r: Option<Voice>)
    ensures r.None? <==> |pool| == 0
    ensures r.Some? ==> r.value in pool
    ensures forall i :: 0 <= i < |pool| && IsPreferred(pool[i]) ==>
      r.Some? && IsPreferred(r.value)
    ensures (forall i :: 0 <= i < |pool| ==> !IsPreferred(pool[i])) && |pool| > 0 ==>
      r == Some(pool[0])
  {
    match FindIndex(pool, IsPreferred)
    case Some(i) => Some(pool[i])
    case None => if |pool| == 0 then None else Some(pool[0])
  }

  /** The preferred voice chosen is the first preferred one in the pool. */
  lemma {:induction false} DefaultIsFirstPreferred(pool: seq<Voice>, i: nat)
    requires i < |pool| && IsPreferred(pool[i])
    requires forall j :: 0 <= j < i ==> !IsPreferred(pool[j])
    ensures DefaultVoice(pool) == Some(pool[i])
  {
    var k := FindIndex(pool, IsPreferred);
    assert k.Some?;
    assert !(k.value < i);
  }

  /** `loadVoices` of the news screen: the picker becomes the English pool;
      a non-empty pool always overwrites the selection with its default, an
      empty one leaves the selection alone. */
  function NewsLoadVoices(catalog: seq<Voice>, selected: Option<Voice>): (r: VoiceState)
    ensures r.voices == EnglishPool(catalog)
    ensures |r.voices| == 0 ==> r.selected == selected
    ensures |r.voices| > 0 ==> r.selected == DefaultVoice(r.voices)
    ensures |r.voices| > 0 ==> r.selected.Some? && r.selected.value in r.voices
  {
    var pool := EnglishPool(catalog);
    match DefaultVoice(pool)
    case Some(v) => VoiceState(pool, Some(v))
    case None => VoiceState(pool, selected)
  }

  /** `loadVoices` of the summary page: the picker is the whole catalog; the
      first voice is chosen only when the catalog is non-empty and nothing
      is selected. */
  function SummaryLoadVoices(catalog: seq<Voice>, selected: Option<Voice>): (r: VoiceState)
    ensures r.voices == catalog
    ensures selected.Some? ==> r.selected == selected
    ensures selected.None? && |catalog| > 0 ==> r.selected == Some(catalog[0])
    ensures |catalog| == 0 ==> r.selected == selected
  {
    if |catalog| > 0 && selected.None? then VoiceState(catalog, Some(catalog[0]))
    else VoiceState(catalog, selected)
  }

  /** Voice loading re-runs whenever the selection changes and whenever the
      catalog is announced again; a second pass over the same catalog changes
      nothing on either screen. */
  lemma {:induction false} LoadVoicesSettles(catalog: seq<Voice>, selected: Option<Voice>)
    ensures var once := NewsLoadVoices(catalog, selected);
      NewsLoadVoices(catalog, once.selected) == once
    ensures var once := SummaryLoadVoices(catalog, selected);
      SummaryLoadVoices(catalog, once.selected) == once
  {
  }

  /** The two screens disagree whenever the user has chosen a voice other
      than the news screen's default and the catalog has an English voice:
      the news screen replaces the choice, the summary page keeps it. */
  lemma {:induction false} PoliciesDiffer(catalog: seq<Voice>, chosen: Voice)
    requires |EnglishPool(catalog)| > 0
    requires Some(chosen) != DefaultVoice(EnglishPool(catalog))
    ensures NewsLoadVoices(catalog, Some(chosen)).selected != Some(chosen)
    ensures SummaryLoadVoices(catalog, Some(chosen)).selected == Some(chosen)
  {
  }

  /** For instance, a catalog holding only a "Daniel" voice overrides a
      choice of "Samantha" on the news screen. */
  lemma {:induction false} DanielOverridesChoice()
    ensures var catalog := [Voice("Daniel", "en-GB")];
      var chosen := Some(Voice("Samantha", "en-US"));
      && NewsLoadVoices(catalog, chosen).selected == Some(Voice("Daniel", "en-GB"))
      && SummaryLoadVoices(catalog, chosen).selected == chosen
  {
  }

  predicate HasName(v: Voice, name: string) {
    v.name == name
  }

  /** The voice picker's change handler, `voices.find(v => v.name === name)`:
      the first offered voice with that name, or nothing (`undefined`) when no
      offered voice has it. */
  function SelectByName(voices: seq<Voice>, name: string): (r: Option<Voice>)
    ensures r.Some? ==> r.value in voices && r.value.name == name
    ensures r.Some? ==> exists i :: 0 <= i < |voices| && voices[i] == r.value && (forall j :: 0 <= j < i ==> voices[j].name != name)
    ensures r.None? <==> forall i :: 0 <= i < |voices| ==> voices[i].name != name
  {
    match FindIndex(voices, v => HasName(v, name))
    case Some(i) => Some(voices[i])
    case None => None
  }

  /** Display aliases the summary page shows instead of raw voice names. */
  const VoiceNames: map<string, string> := map[
    "Google US English" := "Alice",
    "Google UK English Male" := "Bob",
    "Google UK English Female" := "Catherine",
    "Google español" := "Diego",
    "Google français" := "Elise",
    "Google Deutsch" := "Fritz",
    "Google Italiano" := "Gina",
    "Google 日本語" := "Hiro",
    "Google 한국의" := "Jin",
    "Google 中文（普通话）" := "Kai",
    "Google русский" := "Lena",
    "Google Nederlands" := "Mila",
    "Google Polski" := "Nina",
    "Google português do Brasil" := "Paulo"
  ]

  /** `voiceNames[voice.name] || voice.name`: the alias when the name is in
      the table, the raw name otherwise. */
  function Label(name: string): (r: string)
    ensures name in VoiceNames ==> r == VoiceNames[name]
    ensures name !in VoiceNames ==> r == name
    ensures |r| > 0 || name == ""
  {
    if name in VoiceNames then VoiceNames[name] else name
  }
}
